=== FILE: README.md ===
# py-nc-getdomains in Dafny

`getDomains.py` lists the domains held at the Namecheap registrar. It reads its
settings, asks for any credentials it is missing, then either calls the
`namecheap.domains.getList` API or reads its own cache file. It then checks the
reply's status and prints a numbered table of the chosen fields of each domain.
This project models the deterministic rules inside that script and proves what
they promise:

- `cells.dfy` (`Cells`): `cellFormat`, which turns the registrar's flag strings into the glyphs `x` and `-`.
- `report.dfy` (`Formatter`): the walk through the decoded reply and the `@Status` check. Also the nested loop that numbers the domains and collects one formatted cell per column key.
- `header.dfy` (`Header`): `formatKeys`, the table header.
- `url.dfy` (`ApiUrl`): `genApiUrl`, the request URL, including Python's `str()` of the page settings.
- `cache.dfy` (`CacheGate`): the cache-or-network decision and the "last performed" time it records.
- `onboarding.dfy` (`Onboarding`): `prefill`, the answer-merge rule, and the `while invalid` prompt loop. Also the conditions that start a prompt.
- `fetch.dfy` (`Fetcher`): `getDomains` end to end, with the HTTP reply and the cache file given as inputs. Also the script's last step, which quits, prints the table, or prints nothing.
- `values.dfy` (`Values`): the decoded reply as a value, plus the row and report types.

The decoded reply is the `Json` datatype. It is what the XML-to-mapping
conversion yields: strings, `None`, lists, and mappings keyed by strings.
`x.get(k, d)` on something that is not a mapping raises AttributeError in
Python. The model keeps track of where that exception is caught:

- Inside the `try` at getDomains.py:205-215 it is caught, and the result is the sentinel `Failed` (-1).
- In the row loop (getDomains.py:223) nothing catches it, so the result is `Raised`.
- With no column keys, `x.get` is never called, so a non-mapping record still gives a row.

Five behaviours of the script that are easy to miss, all modelled as written:

- A live reply whose status is "ERROR" is written to the cache file before the status is checked (`Fetcher.ErrorReplyIsCached`). A later run that reads that file gives -1 again (`Fetcher.CachedErrorFails`).
- A `Domain` value that is a single mapping, not a list, gives no rows; it is not turned into a one-element list (`Formatter.NonListGivesNoRows`).
- A cache path with no cache file makes `open` raise (`Raised`). It does not fall back to a live fetch.
- A run whose cache gate picks the network (`usecachefile` false) records the current time before the request (getDomains.py:112-117), so the cache window opens whatever the request gives, a failure included. A run inside that window reads the cache, and with no cache file it raises (`Fetcher.FailedCallOpensWindow`). Conversely, with no cache path, a run whose gate picked the cache still calls the network (getDomains.py:161) without recording the time (`Fetcher.LiveCallWithoutTimestamp`).
- An empty column key gets a cell in every row (usually `?missing?`) but no header label, so the printed table is misaligned (`Fetcher.EmptyKeyMisaligns`).

A reply body the XML conversion cannot read raises outside any `try`
(getDomains.py:177). This is the `UnreadableReply` case, and it gives `Raised`.
Reading the cache file raises in two more ways, both in the `Undecodable` case:

- The content is not JSON (getDomains.py:192). The script can leave such a file itself: it creates the file empty before writing (getDomains.py:184) and ignores a failed write (getDomains.py:188).
- The content decodes to a truthy value that is not a string, such as an object written with one JSON encoding instead of two. Then `json.loads` of it raises (getDomains.py:203).

Of the outcomes of reading the file, only a falsy stored value (`""`, `null`,
`false`, `0`, `[]`, `{}`) gives -1 before the status check (getDomains.py:202,
228-229). That is the `FalsyDocument` case. A decoded document goes through the
same status check as a live reply, so an ERROR document, or one with a
non-mapping on the path to the domains, gives -1 too.

## Model

| member | source | states |
|---|---|---|
| `Cells.CellFormat` | getDomains.py:194-200 | "true"/"ENABLED" give "x" and "false"/"DISABLED" give "-", and only those flags or the glyph itself give them. Any other non-empty string passes through unchanged. An empty, `None` or non-string cell gives "". |
| `Cells.CellFormatIdempotent` | getDomains.py:194-200 | Formatting a formatted cell again changes nothing. |
| `Cells.MissingFieldShown` | getDomains.py:223 | The `?missing?` placeholder is shown unchanged. |
| `Formatter.CellsOf` | getDomains.py:222-223 | A mapping record gets exactly one cell per column key. |
| `Formatter.RowsOf` | getDomains.py:217-225 | When no exception is raised, there is exactly one row per domain record. |
| `Formatter.CellsOfAt` | getDomains.py:222-223 | Cell j is the formatted value of column key j, and `?missing?` when the record lacks that key. |
| `Formatter.RowsOfDefined` | getDomains.py:219-225 | The row builder finishes without an exception iff there are no column keys or every record is a mapping. |
| `Formatter.RowsOfAt` | getDomains.py:217-225 | Row i has ordinal i + 1 (1-based, consecutive) and exactly one cell per column key, in key order. |
| `Formatter.RowsOfNoneExtends` | getDomains.py:220-224 | Once a record raises, the whole loop raises, whatever follows it. |
| `Formatter.BuildRows` | getDomains.py:217-227 | The nested `numCount`/`e`/`d` loop yields exactly the rows specified by `RowsOf`, or `Raised` at the first non-mapping record. |
| `Formatter.ErrorStatusFails` | getDomains.py:206-210 | A reply whose `ApiResponse.@Status` is "ERROR" gives the -1 sentinel and no rows, whatever else it holds. |
| `Formatter.FailedOnlyWhenNotLocated` | getDomains.py:205-215 | `ReportOf` gives the sentinel exactly when `Locate`, the walk down `ApiResponse`, `CommandResponse`, `DomainGetListResult`, `Domain`, finds no domain value. That happens for the ERROR status or a non-mapping on the path. |
| `Formatter.NonListGivesNoRows` | getDomains.py:212-227 | A `Domain` value that is not a list (a single mapping, or absent) gives an empty list of rows. |
| `Formatter.ListGivesNumberedRows` | getDomains.py:202-227 | Any reply whose walk (`Locate`) finds a `Domain` list of mappings gives one row per domain, numbered 1, 2, … in order, each with the record's formatted cells. |
| `Formatter.LocateIgnoresOtherFields` | getDomains.py:205-212 | A non-ERROR reply with any other fields beside the path (`@xmlns`, `Errors`, `Paging`, …) locates its `Domain` value. |
| `Formatter.ProcessResponse` | getDomains.py:202-227 | The status check followed by the row builder yields the report specified by `ReportOf`. `ReportOf` gives -1 when `Locate` finds the ERROR status or a malformed path; otherwise it gives the rows of a list, or no rows. |
| `Header.StripAt` | getDomains.py:242 | Removing '@' leaves no '@' and never lengthens the key. |
| `Header.StripAtAppend` | getDomains.py:242 | Removing '@' distributes over concatenation, so every other character is kept, in order. |
| `Header.StripAtFixes` | getDomains.py:242 | A key without '@' is unchanged, and removing twice is the same as removing once. |
| `Header.StripMarkerPrefix` | getDomains.py:242 | A key with one leading '@' and no other loses exactly that '@'. |
| `Header.Labels` | getDomains.py:240-242 | There is at most one label per key. |
| `Header.LabelsSingle` | getDomains.py:240-242 | One key gives its stripped label when it is a non-empty string, and no label otherwise. |
| `Header.LabelsAppend` | getDomains.py:240-242 | The labels of concatenated key lists are the concatenated labels, so the header is the keys filtered and stripped in order, for every input. |
| `Header.LabelsSound` | getDomains.py:237-243 | Every label is some non-empty string key with '@' removed, and every non-empty string key contributes its label. |
| `Header.LabelsAllStrings` | getDomains.py:237-243 | When every key is a non-empty string, label k is key k without '@': nothing is dropped and the order is kept. |
| `Header.HeaderShape` | getDomains.py:237-243 | The header starts with "#". It has at most 1 + (number of keys) entries, is just ["#"] for a non-list input, and no label contains '@'. |
| `Header.DefaultHeader` | getDomains.py:237-243 | ["@Name", "@Expires"] gives ["#", "Name", "Expires"]. |
| `Header.FormatKeys` | getDomains.py:237-243 | The `output.append` loop yields exactly the header specified by `HeaderOf`. |
| `ApiUrl.Decimal` | getDomains.py:140-141 | `str()` of a natural number is a non-empty string of digits with no leading zero. |
| `ApiUrl.IntStr` | getDomains.py:140-141 | `str()` of an int is non-empty and starts with '-' exactly for negative values. |
| `ApiUrl.DecimalRoundTrip` | getDomains.py:140-141 | Reading the digits back gives the number. |
| `ApiUrl.FragmentsSpellUrl` | getDomains.py:133-145 | Joining the fragments of `urlArr` in order spells the request URL, with its parameters in the fixed order. |
| `ApiUrl.GenApiUrl` | getDomains.py:121-153 | Gives None iff the command, API key, client IP, user name or API domain is empty. Otherwise gives `https://{domain}/xml.response?ApiUser=…&ApiKey=…&UserName=…&Command=…&ClientIp=…&Page=…&PageSize=…&SortBy=…`. |
| `CacheGate.UseCache` | getDomains.py:108-110 | The cache is used iff the override is set or the elapsed seconds are strictly below the time-to-live. |
| `CacheGate.LastPerformedAfter` | getDomains.py:112-117 | When the gate picks the network (`usecachefile` false) the current time is recorded; when it picks the cache the stored time is kept, whether or not the run later calls the network. |
| `CacheGate.BoundaryPicksNetwork` | getDomains.py:110 | When the elapsed time equals the time-to-live, the network is used. |
| `CacheGate.StaleStaysStale` | getDomains.py:110 | Without the override, a stale cache stays stale at every later time. |
| `CacheGate.LiveCallOpensWindow` | getDomains.py:108-117 | After the gate picks the network, a run `e` seconds later reads the cache iff `e` is below the time-to-live. |
| `Onboarding.Prefill` | getDomains.py:62-63 | The hint is empty iff the value is empty or is the placeholder. Otherwise it is " (" + value + ")", and the value can be read back from it. |
| `Onboarding.Merge` | getDomains.py:71 | An empty answer keeps the held value and any other answer replaces it. The result is non-empty iff the answer or the held value is. |
| `Onboarding.CandidateIp` | getDomains.py:51 | The resolved public address wins over the stored one when it is non-empty. |
| `Onboarding.IpPromptTriggers` | getDomains.py:82 | `NeedsIpPrompt` is the three-way test of line 82. A public address that differs from the stored one, or the placeholder, starts the address prompt; a matching real address does not. |
| `Onboarding.IpVerb` | getDomains.py:86 | The prompt says "confirm" iff there is an address to offer, and "enter" otherwise. |
| `Onboarding.FirstAnswer` | getDomains.py:69-72 | Finds the first non-empty answer, with every earlier answer empty. |
| `Onboarding.Prompt` | getDomains.py:68-88 | Models each of the three `while invalid` loops (user name, API key, address). With a value held, the loop stops after one answer, at the merge of that answer. With nothing held, it stops exactly at the first non-empty answer. It stops only once the value is non-empty. |
| `Onboarding.PlaceholderAccepted` | getDomains.py:66-72 | An empty answer while the placeholder user name is held keeps the placeholder. It still satisfies `NeedsPrompt`, the unset-or-placeholder test of lines 66 and 74. |
| `Fetcher.GetDomains` | getDomains.py:155-229 | Yields the report and cache write specified by `GetDomainsSpec`. That function takes the live path when `GoesLive` holds (no cache chosen, or no cache path, line 161). Live path: an incomplete URL or a failed request gives -1 and leaves the cache alone; an unreadable reply body raises; a reply is written to the cache and then checked. Cache path: no file or an undecodable file raises, a stored falsy value gives -1, a document is checked. |
| `Fetcher.FailedCallOpensWindow` | getDomains.py:108-192 | A run whose gate picks the network records the current time before the request, whatever the request gives. So a run less than the time-to-live later takes the cache path, and with no cache file it raises. |
| `Fetcher.LiveCallWithoutTimestamp` | getDomains.py:108-192 | With the cache chosen but no cache path, the run still calls the network and attempts the cache write, yet the stored time is unchanged. |
| `Fetcher.CachedErrorFails` | getDomains.py:190-215 | A cached document that `Locate` finds no domains in (an ERROR reply, or a non-mapping on the path) gives -1 on the cache path, and nothing is written. |
| `Fetcher.ErrorReplyIsCached` | getDomains.py:177-210 | A live ERROR reply gives -1 and still overwrites the cache. |
| `Fetcher.PathsIndependent` | getDomains.py:161-192 | The live path never reads the cache file, and the cache path never depends on the URL or the network. |
| `Fetcher.KeyList` | getDomains.py:244 | The configured keys are passed to `formatKeys` as a list of the same strings in the same order. |
| `Fetcher.Present` | getDomains.py:231-247 | Yields the ending specified by `OutputOf`: the script quits on -1, prints a table headed by `HeaderOf` of the keys for non-empty rows, and prints "Nothing to print" otherwise. |
| `Fetcher.TableAligned` | getDomains.py:217-244 | With non-empty keys, the printed header has "#" plus one label per key, and every row has its ordinal plus one cell per key. |
| `Fetcher.EmptyKeyMisaligns` | getDomains.py:217-244 | When a column key is empty, the header has fewer than 1 + (number of keys) entries, while every row still has one cell per key. |
| `Header.LabelsDropsEmpty` | getDomains.py:241-242 | A key that is not a non-empty string gets no label, so there are fewer labels than keys. |
| `Fetcher.TwoDomainReport` | getDomains.py:194-227 | Two domains with `AutoRenew` "true" and "false" under columns `@Name`, `@AutoRenew` give rows [1, "example.com", "x"] and [2, "other.com", "-"]. |

## Left out

- HTTP: the `requests.get` calls (getDomains.py:168 and helpers.py:5) and the whole of `get_public_ip` are network I/O. Their outcomes are inputs instead: `Fetch` for the reply, `Option<string>` for the public address.
- Decoding and storage: the XML-to-mapping conversion, `json.dumps`/`json.load`/`json.loads`, the double JSON encoding of the cache, and creating and writing the cache file (getDomains.py:177-192) are library and file I/O. The model takes the decoded document, or the fact that decoding failed. `refreshed` only records that the write is attempted. A failed write is caught and printed in the source and does not change the result.
- `config_init` in helpers.py is left out. It is glue over `configparser` and file writes, and its handling of malformed values depends on that library. Settings are inputs.
- Terminal: `tabulate` rendering, `print` and `dprint` output, the `input()` calls, the y/n confirmation loop and `quit()` (getDomains.py:90-105) are interactive I/O. The answers a user types are a sequence given to `Prompt`. Writing confirmed values back to the settings file is left out.
- Time: `datetime.now()`, `strftime` and `strptime` are replaced by whole seconds.
- CacheGate.UseCache: works on whole seconds, so it does not model the sub-second part of `total_seconds()`.
- Onboarding.Prompt: when the given answers run out before a value is set, it returns `settled == false`. The source would instead wait for more input.
- Formatter.BuildRows: column keys are strings. The source would also accept other configured values there, with lookups that depend on Python hashing; they are not modelled.
- Values: `Json` has no numbers or booleans. A cache file not written by the script can hold them (getDomains.py:192, 203), and every test the script applies treats them as it treats `JNull` (`cellFormat` gives "", `== 'ERROR'` and the list test fail, `.get` raises), so encode them as `JNull`.
- Python's `None` for a setting is modelled as the empty string, because both are falsy in every test the script makes.

=== FILE: cache.dfy ===
/** The cache-or-network decision and the "last performed" time it keeps.
    Times are whole seconds since a fixed origin. */
module CacheGate {

  /** `usecachefile`: the local cache is read when the override is set or
      fewer than `cacheTime` seconds have passed since the time last recorded. */
  function UseCache(useLocal: bool, now: int, lastPerformed: int, cacheTime: int): (r: bool)
    ensures useLocal ==> r
    ensures !useLocal ==> (r <==> now - lastPerformed < cacheTime)
  {
    useLocal || now - lastPerformed < cacheTime
  }

  /** The "last performed" time after the decision: when the gate picks the
      network the current time is recorded, before any request is made;
      otherwise the stored time is left alone, even if the run goes on to
      call the network for want of a cache path. */
  function LastPerformedAfter(useCache: bool, now: int, lastPerformed: int): (r: int)
    ensures useCache ==> r == lastPerformed
    ensures !useCache ==> r == now
  {
    if useCache then lastPerformed else now
  }

  /** Exactly `cacheTime` seconds after the recorded time the cache is stale. */
  lemma BoundaryPicksNetwork(now: int, lastPerformed: int, cacheTime: int)
    requires now - lastPerformed == cacheTime
    ensures !UseCache(false, now, lastPerformed, cacheTime)
  {
  }

  /** Without the override, once the cache is stale it stays stale until a
      run whose gate picks the network records a new time. */
  lemma StaleStaysStale(now: int, later: int, lastPerformed: int, cacheTime: int)
    requires now <= later
    requires !UseCache(false, now, lastPerformed, cacheTime)
    ensures !UseCache(false, later, lastPerformed, cacheTime)
  {
  }

  /** After the gate picks the network at `now`, a run `elapsed` seconds later reads the
      cache exactly when `elapsed < cacheTime`: a positive time-to-live
      spares the registrar repeated calls, a zero or negative one never does. */
  lemma LiveCallOpensWindow(
    useLocal: bool, now: int, lastPerformed: int, cacheTime: int, elapsed: int)
    requires !UseCache(useLocal, now, lastPerformed, cacheTime)
    ensures var stored := LastPerformedAfter(UseCache(useLocal, now, lastPerformed, cacheTime), now, lastPerformed);
      UseCache(false, now + elapsed, stored, cacheTime) <==> elapsed < cacheTime
  {
  }
}

=== FILE: cells.dfy ===
/** Cell normalisation (`cellFormat`): registrar flag strings become glyphs. */
module Cells {
  import opened Values

  /** Placeholder the row builder substitutes for a field a record lacks. */
  const MissingField := "?missing?"

  /** A non-empty string cell is kept, except that the registrar's two
      affirmative flags become "x" and its two negative flags "-"; anything
      else (an empty string, `None`, a nested list or mapping) becomes "". */
  function CellFormat(cell: Json): (r: string)
    ensures r == "x" <==> cell.JStr? && cell.s in {"true", "ENABLED", "x"}
    ensures r == "-" <==> cell.JStr? && cell.s in {"false", "DISABLED", "-"}
    ensures r == "" <==> !cell.JStr? || cell.s == ""
    ensures cell.JStr? && cell.s !in {"true", "ENABLED", "false", "DISABLED"} ==> r == cell.s
  {
    if cell.JStr? && cell.s != "" then
      if cell.s == "true" || cell.s == "ENABLED" then "x"
      else if cell.s == "false" || cell.s == "DISABLED" then "-"
      else cell.s
    else
      ""
  }

  /** Formatting an already formatted cell changes nothing, so a glyph can
      never be confused with a flag it was not produced from. */
  lemma CellFormatIdempotent(cell: Json)
    ensures CellFormat(JStr(CellFormat(cell))) == CellFormat(cell)
  {
  }

  /** The placeholder for a missing field survives formatting. */
  lemma MissingFieldShown()
    ensures CellFormat(JStr(MissingField)) == MissingField
  {
  }
}

=== FILE: fetch.dfy ===
/**
 * `getDomains` end to end, with the network call and the cache file given
 * as their outcomes, and the script's final step that prints the table.
 */
module Fetcher {
  import opened Values
  import opened Formatter
  import opened ApiUrl
  import opened Header
  import opened CacheGate

  /** What the GET request ended with: the decoded reply; a reply body the
      XML conversion cannot read (it raises outside any `try`); or an HTTP
      error status or transport failure (both caught and reported as -1). */
  datatype Fetch = Fetched(doc: Json) | UnreadableReply | HttpFailed | TransportFailed

  /** What reading the cache file gave, once both JSON decodings are done:
      - `NoFile`: there is no file, so the open raises;
      - `Undecodable`: the content is not a JSON string that itself decodes.
        That covers the empty file created before a write that then failed,
        where the first decoding raises. It also covers a truthy stored value
        that is not a string, such as an object written with one encoding
        instead of two, where the second decoding raises;
      - `FalsyDocument`: the stored value is falsy (`""`, `null`, `false`,
        `0`, `[]`, `{}`), so the truth test fails and the result is -1;
      - `Document(doc)`: the decoded document, which still goes through the
        status check. */
  datatype CacheRead = NoFile | Undecodable | FalsyDocument | Document(doc: Json)

  /** The live path is taken unless the cache was chosen and a cache path is
      configured. */
  predicate GoesLive(fromLocal: bool, cacheFile: string)
  {
    !fromLocal || cacheFile == ""
  }

  /** The report and whether the cache file is rewritten. */
  function GetDomainsSpec(
    fromLocal: bool, cacheFile: string, params: UrlParams,
    fetch: Fetch, cache: CacheRead, keys: seq<string>): (Report, bool)
  {
    if GoesLive(fromLocal, cacheFile) then
      if !Complete(params) then (Failed, false)
      else match fetch
        case Fetched(doc) => (ReportOf(doc, keys), true)
        case UnreadableReply => (Raised, false)
        case HttpFailed => (Failed, false)
        case TransportFailed => (Failed, false)
    else match cache
      case NoFile => (Raised, false)
      case Undecodable => (Raised, false)
      case FalsyDocument => (Failed, false)
      case Document(doc) => (ReportOf(doc, keys), false)
  }

  /** `getDomains`: build the URL and fetch, or read the cache; then check
      the status and build the rows. `refreshed` is true when the fresh reply
      is written to the cache file. */
  method GetDomains(
    fromLocal: bool, cacheFile: string, params: UrlParams,
    fetch: Fetch, cache: CacheRead, keys: seq<string>)
    returns (report: Report, refreshed: bool)
    ensures (report, refreshed) == GetDomainsSpec(fromLocal, cacheFile, params, fetch, cache, keys)
    ensures refreshed ==> GoesLive(fromLocal, cacheFile) && fetch.Fetched?
    ensures !GoesLive(fromLocal, cacheFile) && cache.Document? ==>
      report == ReportOf(cache.doc, keys)
  {
    refreshed := false;
    var doc: Json;
    if GoesLive(fromLocal, cacheFile) {
      var url := GenApiUrl(params);
      if url.None? {
        return Failed, false;
      }
      match fetch
      case UnreadableReply => return Raised, false;
      case HttpFailed => return Failed, false;
      case TransportFailed => return Failed, false;
      case Fetched(d) =>
        doc := d;
        refreshed := true;
    } else {
      match cache
      case NoFile => return Raised, false;
      case Undecodable => return Raised, false;
      case FalsyDocument => return Failed, false;
      case Document(d) => doc := d;
    }
    report := ProcessResponse(doc, keys);
  }

  /** A live reply that reports "ERROR" still overwrites the cache: the write
      comes before the status check. */
  lemma ErrorReplyIsCached(
    fromLocal: bool, cacheFile: string, params: UrlParams, cache: CacheRead,
    api: map<string, Json>, keys: seq<string>)
    requires GoesLive(fromLocal, cacheFile) && Complete(params)
    requires "@Status" in api && api["@Status"] == JStr("ERROR")
    ensures GetDomainsSpec(fromLocal, cacheFile, params,
      Fetched(JObj(map["ApiResponse" := JObj(api)])), cache, keys) == (Failed, true)
  {
  }

  /** On the live path the cache file is never read, on the cache path the
      network is never used. */
  lemma PathsIndependent(
    fromLocal: bool, cacheFile: string, params: UrlParams, params': UrlParams,
    fetch: Fetch, fetch': Fetch, cache: CacheRead, cache': CacheRead, keys: seq<string>)
    ensures GoesLive(fromLocal, cacheFile) ==>
      GetDomainsSpec(fromLocal, cacheFile, params, fetch, cache, keys) ==
      GetDomainsSpec(fromLocal, cacheFile, params, fetch, cache', keys)
    ensures !GoesLive(fromLocal, cacheFile) ==>
      GetDomainsSpec(fromLocal, cacheFile, params, fetch, cache, keys) ==
      GetDomainsSpec(fromLocal, cacheFile, params', fetch', cache, keys)
  {
  }

  /** A cached document goes through the same status check as a live reply,
      so a cached ERROR reply, or one with a non-mapping on the path to the
      domains, ends in the sentinel as well. */
  lemma CachedErrorFails(cacheFile: string, params: UrlParams, fetch: Fetch,
    doc: Json, keys: seq<string>)
    requires cacheFile != ""
    requires !Locate(doc).Domains?
    ensures GetDomainsSpec(true, cacheFile, params, fetch, Document(doc), keys) == (Failed, false)
  {
    FailedOnlyWhenNotLocated(doc, keys);
  }

  /** The "last performed" time is stored as soon as the gate picks the
      network, before the request is made, so the window opens whatever the
      request gives, a failure included:
      a run within `cacheTime` seconds afterwards takes the cache path, and
      with no cache file from an earlier run it raises. */
  lemma FailedCallOpensWindow(
    now: int, lastPerformed: int, cacheTime: int, elapsed: int,
    cacheFile: string, params: UrlParams, fetch: Fetch, keys: seq<string>)
    requires !UseCache(false, now, lastPerformed, cacheTime)
    requires cacheFile != "" && 0 <= elapsed < cacheTime
    ensures var stored := LastPerformedAfter(false, now, lastPerformed);
      var again := UseCache(false, now + elapsed, stored, cacheTime);
      && again
      && GetDomainsSpec(again, cacheFile, params, fetch, NoFile, keys) == (Raised, false)
  {
    LiveCallOpensWindow(false, now, lastPerformed, cacheTime, elapsed);
  }

  /** With the cache chosen but no cache path, the run calls the network
      and attempts the write (whose failure is caught), while the gate,
      having picked the cache, records no new time. */
  lemma LiveCallWithoutTimestamp(
    now: int, lastPerformed: int, cacheTime: int, useLocal: bool,
    params: UrlParams, doc: Json, cache: CacheRead, keys: seq<string>)
    requires UseCache(useLocal, now, lastPerformed, cacheTime)
    requires Complete(params)
    ensures GoesLive(true, "")
    ensures GetDomainsSpec(true, "", params, Fetched(doc), cache, keys) == (ReportOf(doc, keys), true)
    ensures LastPerformedAfter(UseCache(useLocal, now, lastPerformed, cacheTime), now, lastPerformed) == lastPerformed
  {
  }

  // ---------------------------------------------------------------------
  // Printing the report
  // ---------------------------------------------------------------------

  /** How the script ends: it quits on the sentinel, prints a table for a
      non-empty list of rows, says there is nothing to print otherwise, or
      has already stopped on an uncaught exception. */
  datatype Output =
    | Quit
    | Table(header: seq<string>, rows: seq<Row>)
    | NothingToPrint
    | Crashed

  /** The configured column keys as the list value `formatKeys` receives. */
  function KeyList(keys: seq<string>): (r: Json)
    ensures r.JList? && |r.items| == |keys|
    ensures forall i :: 0 <= i < |keys| ==> r.items[i] == JStr(keys[i])
  {
    JList(seq(|keys|, i requires 0 <= i < |keys| => JStr(keys[i])))
  }

  function OutputOf(report: Report, keys: seq<string>): Output
  {
    match report
    case Failed => Quit
    case Raised => Crashed
    case Rows(rows) => if rows != [] then Table(HeaderOf(KeyList(keys)), rows) else NothingToPrint
  }

  /** The script's last lines. */
  method Present(report: Report, keys: seq<string>) returns (out: Output)
    ensures out == OutputOf(report, keys)
  {
    match report
    case Failed => out := Quit;
    case Raised => out := Crashed;
    case Rows(rows) =>
      if rows != [] {
        var header := FormatKeys(KeyList(keys));
        out := Table(header, rows);
      } else {
        out := NothingToPrint;
      }
  }

  /** With non-empty column keys the printed table is rectangular: the
      header holds "#" and one label per key, and every row its ordinal and
      one cell per key. */
  lemma {:induction false} TableAligned(doc: Json, keys: seq<string>)
    requires forall i :: 0 <= i < |keys| ==> keys[i] != ""
    requires OutputOf(ReportOf(doc, keys), keys).Table?
    ensures var t := OutputOf(ReportOf(doc, keys), keys);
      && |t.header| == 1 + |keys|
      && (forall k :: 0 <= k < |keys| ==> t.header[k + 1] == StripAt(keys[k]))
      && (forall r :: 0 <= r < |t.rows| ==> t.rows[r].ordinal == r + 1 && |t.rows[r].cells| == |keys|)
  {
    var items := KeyList(keys).items;
    LabelsAllStrings(items);
    var header := HeaderOf(KeyList(keys));
    assert |header| == 1 + |keys| && forall k :: 0 <= k < |keys| ==> header[k + 1] == StripAt(keys[k]) by {
      if keys != [] {
        assert header == ["#"] + Labels(items);
      }
    }
    var arr := Locate(doc).arr;
    assert arr.JList? && RowsOf(arr.items, keys).Some?;
    var rows := RowsOf(arr.items, keys).value;
    assert ReportOf(doc, keys) == Rows(rows);
    forall r | 0 <= r < |rows|
      ensures rows[r].ordinal == r + 1 && |rows[r].cells| == |keys|
    {
      RowsOfAt(arr.items, keys, r);
    }
  }

  /** An empty column key gets a cell in every row but no header label, so
      the printed table has fewer labels than row cells. */
  lemma EmptyKeyMisaligns(doc: Json, keys: seq<string>)
    requires "" in keys
    requires OutputOf(ReportOf(doc, keys), keys).Table?
    ensures var t := OutputOf(ReportOf(doc, keys), keys);
      && |t.header| < 1 + |keys|
      && (forall r :: 0 <= r < |t.rows| ==> |t.rows[r].cells| == |keys|)
  {
    var items := KeyList(keys).items;
    var i :| 0 <= i < |keys| && keys[i] == "";
    assert items[i] == JStr("");
    LabelsDropsEmpty(items, i);
    var arr := Locate(doc).arr;
    var rows := RowsOf(arr.items, keys).value;
    assert ReportOf(doc, keys) == Rows(rows);
    forall r | 0 <= r < |rows|
      ensures |rows[r].cells| == |keys|
    {
      RowsOfAt(arr.items, keys, r);
    }
  }

  /** The example report: two cached domains, one renewing automatically and
      one not, under the columns `@Name` and `@AutoRenew`. */
  lemma TwoDomainReport()
    ensures var keys := ["@Name", "@AutoRenew"];
      var one := JObj(map["@Name" := JStr("example.com"), "@AutoRenew" := JStr("true")]);
      var two := JObj(map["@Name" := JStr("other.com"), "@AutoRenew" := JStr("false")]);
      var doc := JObj(map["ApiResponse" := JObj(map[
        "@Status" := JStr("OK"),
        "CommandResponse" := JObj(map["DomainGetListResult" := JObj(map["Domain" := JList([one, two])])])])]);
      ReportOf(doc, keys) == Rows([Row(1, ["example.com", "x"]), Row(2, ["other.com", "-"])])
  {
    var keys := ["@Name", "@AutoRenew"];
    var one := JObj(map["@Name" := JStr("example.com"), "@AutoRenew" := JStr("true")]);
    var two := JObj(map["@Name" := JStr("other.com"), "@AutoRenew" := JStr("false")]);
    assert keys[..1] == ["@Name"] && keys[..1][..0] == [];
    assert CellsOf(one.fields, keys) == ["example.com", "x"];
    assert CellsOf(two.fields, keys) == ["other.com", "-"];
    assert RecordCells(one, keys) == Some(["example.com", "x"]);
    assert RecordCells(two, keys) == Some(["other.com", "-"]);
    var ds := [one, two];
    var first := ds[..1];
    assert |first| == 1 && first[0] == one && first[..0] == [];
    var none: seq<Row> := [];
    assert none + [Row(1, ["example.com", "x"])] == [Row(1, ["example.com", "x"])];
    assert RowsOf(first, keys) == Some([Row(1, ["example.com", "x"])]);
    assert ds[..|ds| - 1] == first && ds[|ds| - 1] == two;
  }
}

=== FILE: header.dfy ===
/** Header construction (`formatKeys`): the ordinal label followed by the
    column keys with the XML attribute marker '@' removed. */
module Header {
  import opened Values

  /** `s.replace('@', '')`. */
  function StripAt(s: string): (r: string)
    ensures '@' !in r
    ensures |r| <= |s|
    decreases |s|
  {
    if s == [] then []
    else if s[0] == '@' then StripAt(s[1..])
    else [s[0]] + StripAt(s[1..])
  }

  /** Removing the marker distributes over concatenation, so together with
      its effect on single characters it keeps every other character, in
      order. */
  lemma {:induction false} StripAtAppend(a: string, b: string)
    ensures StripAt(a + b) == StripAt(a) + StripAt(b)
    decreases |a|
  {
    if a == [] {
      assert a + b == b;
    } else {
      assert (a + b)[0] == a[0];
      assert (a + b)[1..] == a[1..] + b;
      StripAtAppend(a[1..], b);
    }
  }

  /** A key without the marker is its own label, and stripping twice is
      stripping once. */
  lemma {:induction false} StripAtFixes(s: string)
    ensures '@' !in s ==> StripAt(s) == s
    ensures StripAt(StripAt(s)) == StripAt(s)
    decreases |s|
  {
    if s != [] {
      StripAtFixes(s[1..]);
      var t := StripAt(s[1..]);
      if s[0] != '@' {
        StripAtAppend([s[0]], t);
      }
    }
  }

  /** The labels of the list elements that are non-empty strings. */
  function Labels(items: seq<Json>): (r: seq<string>)
    ensures |r| <= |items|
    decreases |items|
  {
    if items == [] then []
    else
      var last := items[|items| - 1];
      var front := Labels(items[..|items| - 1]);
      if last.JStr? && last.s != "" then front + [StripAt(last.s)] else front
  }

  /** A single key gives its label when it is a non-empty string, and
      nothing otherwise. */
  lemma LabelsSingle(x: Json)
    ensures Labels([x]) == if x.JStr? && x.s != "" then [StripAt(x.s)] else []
  {
    assert [x][..0] == [];
  }

  /** The labels of a concatenation are the concatenation of the labels:
      with `LabelsSingle`, `Labels` keeps order and multiplicity for every
      list of keys. */
  lemma {:induction false} LabelsAppend(a: seq<Json>, b: seq<Json>)
    ensures Labels(a + b) == Labels(a) + Labels(b)
    decreases |b|
  {
    if b == [] {
      assert a + b == a;
    } else {
      var front := b[..|b| - 1];
      assert (a + b)[..|a + b| - 1] == a + front;
      assert (a + b)[|a + b| - 1] == b[|b| - 1];
      LabelsAppend(a, front);
    }
  }

  /** The header for the configured column value: only a non-empty list
      contributes labels. */
  function HeaderOf(keys: Json): seq<string>
  {
    if keys.JList? && keys.items != [] then ["#"] + Labels(keys.items) else ["#"]
  }

  /** `name` is what some non-empty string key becomes. */
  ghost predicate LabelOfSomeKey(items: seq<Json>, name: string)
  {
    exists i :: 0 <= i < |items| && items[i].JStr? && items[i].s != "" &&
                name == StripAt(items[i].s)
  }

  /** Every label is a stripped non-empty string key, and every non-empty
      string key has its label. */
  lemma {:induction false} LabelsSound(items: seq<Json>)
    ensures forall k :: 0 <= k < |Labels(items)| ==> LabelOfSomeKey(items, Labels(items)[k])
    ensures forall i :: 0 <= i < |items| && items[i].JStr? && items[i].s != "" ==>
      StripAt(items[i].s) in Labels(items)
    decreases |items|
  {
    if items != [] {
      var n := |items|;
      var front := items[..n - 1];
      LabelsSound(front);
      var labels := Labels(items);
      assert labels[..|Labels(front)|] == Labels(front);
      forall k | 0 <= k < |labels|
        ensures LabelOfSomeKey(items, labels[k])
      {
        if k < |Labels(front)| {
          assert LabelOfSomeKey(front, Labels(front)[k]);
          var i :| 0 <= i < |front| && front[i].JStr? && front[i].s != "" &&
                   Labels(front)[k] == StripAt(front[i].s);
          assert items[i] == front[i];
          assert labels[k] == Labels(front)[k];
        } else {
          var last := items[n - 1];
          assert last.JStr? && last.s != "";
          assert labels == Labels(front) + [StripAt(last.s)];
          assert labels[k] == StripAt(items[n - 1].s);
        }
      }
      forall i | 0 <= i < |items| && items[i].JStr? && items[i].s != ""
        ensures StripAt(items[i].s) in labels
      {
        if i < n - 1 {
          assert front[i] == items[i];
          assert StripAt(front[i].s) in Labels(front);
        }
      }
    }
  }

  /** When every key is a non-empty string, label k is key k without its
      markers: nothing is dropped and the order is kept. */
  lemma {:induction false} LabelsAllStrings(items: seq<Json>)
    requires forall i :: 0 <= i < |items| ==> items[i].JStr? && items[i].s != ""
    ensures |Labels(items)| == |items|
    ensures forall k :: 0 <= k < |items| ==> Labels(items)[k] == StripAt(items[k].s)
    decreases |items|
  {
    if items != [] {
      var n := |items|;
      var front := items[..n - 1];
      assert forall i :: 0 <= i < n - 1 ==> front[i] == items[i];
      LabelsAllStrings(front);
      assert Labels(items) == Labels(front) + [StripAt(items[n - 1].s)];
      forall k | 0 <= k < n
        ensures Labels(items)[k] == StripAt(items[k].s)
      {
        if k < n - 1 {
          assert Labels(items)[k] == Labels(front)[k];
        }
      }
    }
  }

  /** A key that is not a non-empty string gets no label, so the labels are
      fewer than the keys. */
  lemma {:induction false} LabelsDropsEmpty(items: seq<Json>, i: nat)
    requires i < |items| && !(items[i].JStr? && items[i].s != "")
    ensures |Labels(items)| < |items|
    decreases |items|
  {
    var n := |items|;
    var front := items[..n - 1];
    if i < n - 1 {
      assert front[i] == items[i];
      LabelsDropsEmpty(front, i);
    }
  }

  /** The header starts with "#", has at most one label per key, and no
      label keeps a marker. */
  lemma {:induction false} HeaderShape(keys: Json)
    ensures |HeaderOf(keys)| >= 1 && HeaderOf(keys)[0] == "#"
    ensures keys.JList? ==> |HeaderOf(keys)| <= 1 + |keys.items|
    ensures !keys.JList? ==> HeaderOf(keys) == ["#"]
    ensures forall k :: 1 <= k < |HeaderOf(keys)| ==> '@' !in HeaderOf(keys)[k]
  {
    if keys.JList? && keys.items != [] {
      LabelsSound(keys.items);
      forall k | 1 <= k < |HeaderOf(keys)|
        ensures '@' !in HeaderOf(keys)[k]
      {
        assert HeaderOf(keys)[k] == Labels(keys.items)[k - 1];
      }
    }
  }

  /** A key written with one leading marker and none elsewhere loses exactly
      that marker. */
  lemma StripMarkerPrefix(s: string)
    requires '@' !in s
    ensures StripAt(['@'] + s) == s
  {
    assert (['@'] + s)[1..] == s;
    StripAtFixes(s);
  }

  /** The default columns give the header the report prints. */
  lemma DefaultHeader()
    ensures HeaderOf(JList([JStr("@Name"), JStr("@Expires")])) == ["#", "Name", "Expires"]
  {
    var name, expires := "@Name", "@Expires";
    assert name == ['@'] + "Name";
    assert expires == ['@'] + "Expires";
    StripMarkerPrefix("Name");
    StripMarkerPrefix("Expires");
    var items := [JStr(name), JStr(expires)];
    assert items[..1][..0] == [];
    assert items[..1] == [JStr(name)];
    assert Labels(items[..1]) == ["Name"];
    assert Labels(items) == ["Name", "Expires"];
  }

  /** The loop of `formatKeys`. */
  method FormatKeys(keys: Json) returns (output: seq<string>)
    ensures output == HeaderOf(keys)
  {
    output := ["#"];
    if keys.JList? && keys.items != [] {
      var items := keys.items;
      var i := 0;
      while i < |items|
        invariant 0 <= i <= |items|
        invariant output == ["#"] + Labels(items[..i])
      {
        var x := items[i];
        assert items[..i + 1][..i] == items[..i];
        if x.JStr? && x.s != "" {
          output := output + [StripAt(x.s)];
        }
        i := i + 1;
      }
      assert items[..i] == items;
    }
  }
}

=== FILE: onboarding.dfy ===
/** The prompt helpers of the interactive set-up: the hint shown in a
    prompt, the rule that merges an answer with the value already held, and
    the loop that asks until a value is set. */
module Onboarding {
  import opened Values

  /** The placeholders the configuration starts with. */
  const DefaultUserName := "NAMECHEAP_USERNAME"
  const DefaultApiKey := "NAMECHEAP_API_KEY"
  const DefaultIpAddr := "YOUR_IP_ADDRESSHERE"

  /** `prefill`: the current value in parentheses, offered as the answer an
      empty input accepts; nothing when there is no value or it is the
      placeholder. */
  function Prefill(value: string, default: string): (r: string)
    ensures r == "" <==> value == "" || value == default
    ensures r != "" ==> |r| == |value| + 3 && r[..2] == " (" && r[|r| - 1] == ')'
    ensures r != "" ==> r[2..|r| - 1] == value
  {
    if value != "" && value != default then " (" + value + ")" else ""
  }

  /** The answer merged with the value held: an empty answer keeps a
      non-empty held value, any other answer replaces it. */
  function Merge(answer: string, held: string): (r: string)
    ensures r != "" <==> answer != "" || held != ""
    ensures answer != "" ==> r == answer
    ensures answer == "" ==> r == held
  {
    if answer == "" && held != "" then held else answer
  }

  /** A credential is asked for when it is unset or still the placeholder. */
  predicate NeedsPrompt(value: string, default: string)
  {
    value == "" || value == default
  }

  /** The address to confirm: the resolved public address when there is
      one, the stored address otherwise. */
  function CandidateIp(publicIp: Option<string>, stored: string): (r: string)
    ensures publicIp.Some? && publicIp.value != "" ==> r == publicIp.value
    ensures publicIp.None? || publicIp.value == "" ==> r == stored
  {
    if publicIp.Some? && publicIp.value != "" then publicIp.value else stored
  }

  /** The address is asked for when it is unset, the placeholder, or differs
      from the stored one (the public address moved). */
  predicate NeedsIpPrompt(ip: string, stored: string)
  {
    ip == "" || ip == DefaultIpAddr || ip != stored
  }

  /** A public address that differs from the stored one always triggers the
      address prompt, and so does the placeholder; the stored address
      re-confirmed from a matching public one does not. */
  lemma IpPromptTriggers(publicIp: string, stored: string)
    ensures publicIp != "" && publicIp != stored ==>
      NeedsIpPrompt(CandidateIp(Some(publicIp), stored), stored)
    ensures NeedsIpPrompt(CandidateIp(None, DefaultIpAddr), DefaultIpAddr)
    ensures publicIp != "" && publicIp != DefaultIpAddr && publicIp == stored ==>
      !NeedsIpPrompt(CandidateIp(Some(publicIp), stored), stored)
  {
  }

  /** The prompt's verb: "confirm" when there is an address to offer. */
  function IpVerb(ip: string): (r: string)
    ensures r == "confirm" <==> ip != ""
    ensures r == "enter" <==> ip == ""
  {
    if Prefill(ip, "") != "" then "confirm" else "enter"
  }

  /** The index of the first non-empty answer, if any. */
  function FirstAnswer(answers: seq<string>): (r: Option<nat>)
    ensures r.Some? ==> r.value < |answers| && answers[r.value] != ""
    ensures r.Some? ==> forall k :: 0 <= k < r.value ==> answers[k] == ""
    ensures r.None? ==> forall k :: 0 <= k < |answers| ==> answers[k] == ""
    decreases |answers|
  {
    if answers == [] then None
    else if answers[0] != "" then Some(0)
    else match FirstAnswer(answers[1..])
      case None => None
      case Some(k) => Some(k + 1)
  }

  /** The `while invalid` loop: read answers in turn, merge each with the
      value held, stop at the first non-empty result. `used` is how many
      answers were read; `settled` is false when the answers ran out before a
      value was set (the source would go on waiting for input). */
  method Prompt(held: string, answers: seq<string>) returns (value: string, used: nat, settled: bool)
    ensures used <= |answers|
    ensures settled <==> value != "" && used > 0
    ensures held != "" && answers != [] ==>
      settled && used == 1 && value == Merge(answers[0], held)
    ensures held == "" ==> match FirstAnswer(answers)
      case None => !settled && used == |answers| && value == ""
      case Some(k) => settled && used == k + 1 && value == answers[k]
    ensures !settled ==> used == |answers|
    ensures used == 0 ==> value == held
  {
    value := held;
    used := 0;
    var invalid := true;
    while invalid && used < |answers|
      invariant used <= |answers|
      invariant invalid <==> used == 0 || value == ""
      invariant used > 0 ==> held == "" || used == 1
      invariant used > 0 && held != "" ==> value == Merge(answers[0], held)
      invariant held == "" ==> forall k :: 0 <= k < used - 1 ==> answers[k] == ""
      invariant held == "" && invalid ==> value == "" && forall k :: 0 <= k < used ==> answers[k] == ""
      invariant held == "" && !invalid ==> value == answers[used - 1] && value != ""
      invariant used == 0 ==> value == held
      decreases |answers| - used, invalid
    {
      value := Merge(answers[used], value);
      used := used + 1;
      if value != "" {
        invalid := false;
      }
    }
    settled := !invalid;
    if held == "" {
      match FirstAnswer(answers)
      case None =>
      case Some(k) =>
        if settled {
          assert k == used - 1;
        }
    }
  }

  /** With the placeholder held, an empty answer keeps the placeholder: the
      loop settles on it and the set-up goes on with it. */
  lemma PlaceholderAccepted()
    ensures Merge("", DefaultUserName) == DefaultUserName
    ensures NeedsPrompt(Merge("", DefaultUserName), DefaultUserName)
  {
  }
}

=== FILE: report.dfy ===
/**
 * Report-row construction and response-shape validation: the second half of
 * `getDomains`, from the decoded response to the numbered rows.
 */
module Formatter {
  import opened Values
  import opened Cells

  // ---------------------------------------------------------------------
  // Specification of the rows
  // ---------------------------------------------------------------------

  /** The value `record.get(key, '?missing?')` yields for a mapping. */
  function FieldOf(fields: map<string, Json>, key: string): Json
  {
    if key in fields then fields[key] else JStr(MissingField)
  }

  /** The formatted cells of a mapping record, one per key, in key order. */
  function CellsOf(fields: map<string, Json>, keys: seq<string>): (r: seq<string>)
    ensures |r| == |keys|
    decreases |keys|
  {
    if keys == [] then []
    else CellsOf(fields, keys[..|keys| - 1]) + [CellFormat(FieldOf(fields, keys[|keys| - 1]))]
  }

  /** The cells of one record; None when the record is not a mapping and a
      key has to be looked up in it (the uncaught AttributeError). With no
      column keys no lookup happens, so any record gives an empty row. */
  function RecordCells(record: Json, keys: seq<string>): Option<seq<string>>
  {
    if keys == [] then Some([])
    else if record.JObj? then Some(CellsOf(record.fields, keys))
    else None
  }

  /** The rows for a list of records, numbered from 1; None when some record
      makes the source raise. */
  function RowsOf(domains: seq<Json>, keys: seq<string>): (r: Option<seq<Row>>)
    ensures r.Some? ==> |r.value| == |domains|
    decreases |domains|
  {
    if domains == [] then Some([])
    else
      var n := |domains|;
      match RowsOf(domains[..n - 1], keys)
      case None => None
      case Some(front) =>
        match RecordCells(domains[n - 1], keys)
        case None => None
        case Some(cells) => Some(front + [Row(n, cells)])
  }

  function AsReport(rows: Option<seq<Row>>): Report
  {
    match rows
    case Some(rs) => Rows(rs)
    case None => Raised
  }

  // ---------------------------------------------------------------------
  // Properties of the rows
  // ---------------------------------------------------------------------

  /** Cell j of a mapping record is the formatted value of column key j, and
      the placeholder when the record lacks that key. */
  lemma {:induction false} CellsOfAt(fields: map<string, Json>, keys: seq<string>, j: nat)
    requires j < |keys|
    ensures CellsOf(fields, keys)[j] == CellFormat(FieldOf(fields, keys[j]))
    ensures keys[j] !in fields ==> CellsOf(fields, keys)[j] == MissingField
    decreases |keys|
  {
    if j < |keys| - 1 {
      CellsOfAt(fields, keys[..|keys| - 1], j);
    }
  }

  predicate AllMappings(domains: seq<Json>)
  {
    forall i :: 0 <= i < |domains| ==> domains[i].JObj?
  }

  /** Rows are produced exactly when no record that must be looked into is
      a non-mapping. */
  lemma {:induction false} RowsOfDefined(domains: seq<Json>, keys: seq<string>)
    ensures RowsOf(domains, keys).Some? <==> keys == [] || AllMappings(domains)
    decreases |domains|
  {
    if domains != [] {
      var n := |domains|;
      var front := domains[..n - 1];
      RowsOfDefined(front, keys);
      assert forall i :: 0 <= i < n - 1 ==> front[i] == domains[i];
      assert AllMappings(domains) <==> AllMappings(front) && domains[n - 1].JObj?;
    }
  }

  /** When rows are produced, row i has ordinal i + 1 and holds exactly one
      formatted cell per column key, in key order. */
  lemma {:induction false} RowsOfAt(domains: seq<Json>, keys: seq<string>, i: nat)
    requires RowsOf(domains, keys).Some? && i < |domains|
    ensures RecordCells(domains[i], keys).Some?
    ensures RowsOf(domains, keys).value[i] == Row(i + 1, RecordCells(domains[i], keys).value)
    ensures |RowsOf(domains, keys).value[i].cells| == |keys|
    decreases |domains|
  {
    var n := |domains|;
    if i < n - 1 {
      RowsOfAt(domains[..n - 1], keys, i);
    }
  }

  /** Once a prefix of the records makes the source raise, the whole list does. */
  lemma {:induction false} RowsOfNoneExtends(domains: seq<Json>, keys: seq<string>, k: nat)
    requires k <= |domains| && RowsOf(domains[..k], keys).None?
    ensures RowsOf(domains, keys).None?
    decreases |domains| - k
  {
    if k < |domains| {
      assert domains[..k + 1][..k] == domains[..k];
      RowsOfNoneExtends(domains, keys, k + 1);
    } else {
      assert domains[..k] == domains;
    }
  }

  // ---------------------------------------------------------------------
  // The row builder
  // ---------------------------------------------------------------------

  /** The nested loop that numbers the records and collects their cells. */
  method BuildRows(domains: seq<Json>, keys: seq<string>) returns (report: Report)
    ensures report == AsReport(RowsOf(domains, keys))
  {
    var numCount := 1;
    var d: seq<Row> := [];
    var i := 0;
    while i < |domains|
      invariant 0 <= i <= |domains|
      invariant numCount == i + 1
      invariant RowsOf(domains[..i], keys) == Some(d)
    {
      var x := domains[i];
      var e: seq<string> := [];
      var j := 0;
      while j < |keys|
        invariant 0 <= j <= |keys|
        invariant x.JObj? ==> e == CellsOf(x.fields, keys[..j])
        invariant j > 0 ==> x.JObj?
        invariant j == 0 ==> e == []
      {
        if !x.JObj? {
          assert RecordCells(x, keys).None?;
          assert domains[..i + 1][..i] == domains[..i];
          RowsOfNoneExtends(domains, keys, i + 1);
          return Raised;
        }
        e := e + [CellFormat(FieldOf(x.fields, keys[j]))];
        assert keys[..j + 1][..j] == keys[..j];
        j := j + 1;
      }
      assert keys[..j] == keys;
      assert RecordCells(x, keys) == Some(e);
      assert domains[..i + 1][..i] == domains[..i];
      d := d + [Row(numCount, e)];
      numCount := numCount + 1;
      i := i + 1;
    }
    assert domains[..i] == domains;
    report := Rows(d);
  }

  // ---------------------------------------------------------------------
  // Response-shape validation
  // ---------------------------------------------------------------------

  /** Where the walk down `ApiResponse → CommandResponse →
      DomainGetListResult → Domain` ends. */
  datatype Located =
    | ApiError        // `@Status` is "ERROR"
    | Malformed       // a step met a non-mapping (caught, -1)
    | Domains(arr: Json)

  function Locate(doc: Json): Located
  {
    match Get(doc, "ApiResponse", EmptyObj)
    case None => Malformed
    case Some(api) =>
      match Get(api, "@Status", JNull)
      case None => Malformed
      case Some(status) =>
        if status == JStr("ERROR") then ApiError
        else
          match Get(api, "CommandResponse", EmptyObj)
          case None => Malformed
          case Some(cmd) =>
            match Get(cmd, "DomainGetListResult", EmptyObj)
            case None => Malformed
            case Some(result) =>
              match Get(result, "Domain", JNull)
              case None => Malformed
              case Some(arr) => Domains(arr)
  }

  /** The report for a decoded response. */
  function ReportOf(doc: Json, keys: seq<string>): Report
  {
    match Locate(doc)
    case ApiError => Failed
    case Malformed => Failed
    case Domains(arr) =>
      if arr.JList? then AsReport(RowsOf(arr.items, keys)) else Rows([])
  }

  /** A response whose `ApiResponse.@Status` is "ERROR" ends in the sentinel,
      whatever else it holds. */
  lemma ErrorStatusFails(api: map<string, Json>, rest: map<string, Json>, keys: seq<string>)
    requires "@Status" in api && api["@Status"] == JStr("ERROR")
    ensures ReportOf(JObj(rest["ApiResponse" := JObj(api)]), keys) == Failed
  {
  }

  /** The sentinel comes only from the status check or a malformed path;
      a located domain value always gives rows or an uncaught exception. */
  lemma FailedOnlyWhenNotLocated(doc: Json, keys: seq<string>)
    ensures ReportOf(doc, keys) == Failed <==> !Locate(doc).Domains?
  {
  }

  /** A `Domain` value that is not a list (a single mapping when one domain is
      registered, or nothing) gives no rows at all. */
  lemma NonListGivesNoRows(doc: Json, keys: seq<string>)
    requires Locate(doc).Domains? && !Locate(doc).arr.JList?
    ensures ReportOf(doc, keys) == Rows([])
  {
  }

  /** The walk follows its four keys and ignores every other field of the
      reply, such as `@xmlns`, `Errors`, `RequestedCommand` or `Paging`. */
  lemma LocateIgnoresOtherFields(
    api: map<string, Json>, cmd: map<string, Json>, result: map<string, Json>,
    rest: map<string, Json>, status: Json, arr: Json)
    requires status != JStr("ERROR")
    ensures var doc := JObj(rest["ApiResponse" := JObj(api[
                "@Status" := status][
                "CommandResponse" := JObj(cmd["DomainGetListResult" :=
                  JObj(result["Domain" := arr])])])]);
      Locate(doc) == Domains(arr)
  {
  }

  /** A document whose walk finds a list of mappings gives one row per
      domain, numbered 1, 2, … in order, each with one formatted cell per
      column key. */
  lemma {:induction false} ListGivesNumberedRows(
    doc: Json, domains: seq<Json>, keys: seq<string>)
    requires Locate(doc) == Domains(JList(domains))
    requires forall i :: 0 <= i < |domains| ==> domains[i].JObj?
    ensures && ReportOf(doc, keys).Rows?
      && |ReportOf(doc, keys).rows| == |domains|
      && forall i :: 0 <= i < |domains| ==>
           && ReportOf(doc, keys).rows[i].ordinal == i + 1
           && ReportOf(doc, keys).rows[i].cells == CellsOf(domains[i].fields, keys)
  {
    RowsOfDefined(domains, keys);
    forall i | 0 <= i < |domains|
      ensures RowsOf(domains, keys).value[i].ordinal == i + 1
      ensures RowsOf(domains, keys).value[i].cells == CellsOf(domains[i].fields, keys)
    {
      RowsOfAt(domains, keys, i);
    }
  }

  /** The validation walk followed by the row builder. */
  method ProcessResponse(doc: Json, keys: seq<string>) returns (report: Report)
    ensures report == ReportOf(doc, keys)
  {
    match Locate(doc)
    case ApiError => report := Failed;
    case Malformed => report := Failed;
    case Domains(arr) =>
      if arr.JList? {
        report := BuildRows(arr.items, keys);
      } else {
        report := Rows([]);
      }
  }
}

=== FILE: url.dfy ===
/** URL building (`genApiUrl`): the registrar request as one query string. */
module ApiUrl {
  import opened Values

  /** The request's configured parts: the command, the credentials, the
      whitelisted client address and the paging and sorting settings. */
  datatype UrlParams = UrlParams(
    command: string,
    apiKey: string,
    clientIp: string,
    userName: string,
    apiDomain: string,
    page: int,
    pageSize: int,
    sortBy: string)

  // ---------------------------------------------------------------------
  // Python's str() of an int
  // ---------------------------------------------------------------------

  predicate IsDigit(c: char) { '0' <= c <= '9' }

  function DigitChar(d: nat): char
    requires d < 10
  {
    "0123456789"[d]
  }

  function DigitValue(c: char): nat
    requires IsDigit(c)
  {
    (c as int - '0' as int) as nat
  }

  /** Decimal digits of `n`, most significant first, without leading zeros. */
  function Decimal(n: nat): (r: string)
    ensures |r| >= 1 && forall k :: 0 <= k < |r| ==> IsDigit(r[k])
    ensures |r| > 1 ==> r[0] != '0'
    decreases n
  {
    if n < 10 then [DigitChar(n)] else Decimal(n / 10) + [DigitChar(n % 10)]
  }

  /** `str(i)`: a minus sign for negative values, then the digits. */
  function IntStr(i: int): (r: string)
    ensures |r| >= 1
    ensures i < 0 <==> r[0] == '-'
  {
    if i < 0 then "-" + Decimal(-i) else Decimal(i)
  }

  /** The value of a string of decimal digits. */
  function DecimalValue(s: string): nat
    requires forall k :: 0 <= k < |s| ==> IsDigit(s[k])
    decreases |s|
  {
    if s == [] then 0 else 10 * DecimalValue(s[..|s| - 1]) + DigitValue(s[|s| - 1])
  }

  /** Reading the digits back gives the number: distinct page numbers and
      page sizes give distinct query values. */
  lemma {:induction false} DecimalRoundTrip(n: nat)
    ensures DecimalValue(Decimal(n)) == n
    decreases n
  {
    var r := Decimal(n);
    if n >= 10 {
      DecimalRoundTrip(n / 10);
      assert r[..|r| - 1] == Decimal(n / 10);
    }
  }

  // ---------------------------------------------------------------------
  // The URL
  // ---------------------------------------------------------------------

  /** `urlArr`. The API-key and user-name pieces are one element in the
      source, two adjacent literals joined by the parser, hence eight. */
  function Fragments(p: UrlParams): seq<string>
  {
    [ "https://" + p.apiDomain + "/xml.response?",
      "ApiUser=" + p.userName,
      "&ApiKey=" + p.apiKey + "&UserName=" + p.userName,
      "&Command=" + p.command,
      "&ClientIp=" + p.clientIp,
      "&Page=" + IntStr(p.page),
      "&PageSize=" + IntStr(p.pageSize),
      "&SortBy=" + p.sortBy ]
  }

  /** Left-to-right concatenation, as the accumulating loop builds it. */
  function Concat(parts: seq<string>): string
    decreases |parts|
  {
    if parts == [] then "" else Concat(parts[..|parts| - 1]) + parts[|parts| - 1]
  }

  /** Every part the request cannot do without is set. */
  predicate Complete(p: UrlParams)
  {
    p.command != "" && p.apiKey != "" && p.clientIp != "" && p.userName != "" && p.apiDomain != ""
  }

  /** The request URL, written out as one string. */
  function RequestUrl(p: UrlParams): string
  {
    ("https://" + p.apiDomain + "/xml.response?")
      + ("ApiUser=" + p.userName)
      + ("&ApiKey=" + p.apiKey)
      + ("&UserName=" + p.userName)
      + ("&Command=" + p.command)
      + ("&ClientIp=" + p.clientIp)
      + ("&Page=" + IntStr(p.page))
      + ("&PageSize=" + IntStr(p.pageSize))
      + ("&SortBy=" + p.sortBy)
  }

  /** Joining the fragments in order gives the URL laid out above. */
  lemma FragmentsSpellUrl(p: UrlParams)
    ensures Concat(Fragments(p)) == RequestUrl(p)
  {
    var f := Fragments(p);
    assert f[..1] == [f[0]] && f[..1][..0] == [];
    assert f[..2][..1] == f[..1];
    assert f[..3][..2] == f[..2];
    assert f[..4][..3] == f[..3];
    assert f[..5][..4] == f[..4];
    assert f[..6][..5] == f[..5];
    assert f[..7][..6] == f[..6];
    assert f[..8][..7] == f[..7];
    assert f[..8] == f;
    var apiKey, userName := "&ApiKey=" + p.apiKey, "&UserName=" + p.userName;
    assert f[2] == apiKey + userName;
    assert Concat(f[..1]) == f[0];
    assert Concat(f[..2]) == f[0] + f[1];
    assert Concat(f[..3]) == f[0] + f[1] + (apiKey + userName);
    assert f[0] + f[1] + (apiKey + userName) == f[0] + f[1] + apiKey + userName;
    assert Concat(f[..4]) == f[0] + f[1] + apiKey + userName + f[3];
    assert Concat(f[..5]) == f[0] + f[1] + apiKey + userName + f[3] + f[4];
    assert Concat(f[..6]) == f[0] + f[1] + apiKey + userName + f[3] + f[4] + f[5];
    assert Concat(f[..7]) == f[0] + f[1] + apiKey + userName + f[3] + f[4] + f[5] + f[6];
    assert Concat(f) == f[0] + f[1] + apiKey + userName + f[3] + f[4] + f[5] + f[6] + f[7];
  }

  /** `genApiUrl`: None exactly when a required part is empty; otherwise the
      query string with its parameters in their fixed order. */
  method GenApiUrl(p: UrlParams) returns (url: Option<string>)
    ensures url.None? <==> !Complete(p)
    ensures url.Some? ==> url.value == RequestUrl(p)
    ensures url.Some? ==> |url.value| > 8 && url.value[..8] == "https://"
  {
    var outStr := "";
    if Complete(p) {
      var urlArr := Fragments(p);
      var i := 0;
      while i < |urlArr|
        invariant 0 <= i <= |urlArr|
        invariant outStr == Concat(urlArr[..i])
      {
        assert urlArr[..i + 1][..i] == urlArr[..i];
        outStr := outStr + urlArr[i];
        i := i + 1;
      }
      assert urlArr[..i] == urlArr;
      FragmentsSpellUrl(p);
    }
    url := if outStr != "" then Some(outStr) else None;
  }
}

=== FILE: values.dfy ===
/**
 * The values getDomains works on: the nested mapping that the registrar's XML
 * reply decodes to (strings, `None`, lists and string-keyed mappings), and the
 * report that `getDomains` returns.
 */
module Values {

  datatype Option<+T> = None | Some(value: T)

  /** A decoded document: XML text nodes and attributes become strings,
      repeated elements lists, elements mappings, empty elements `None`. */
  datatype Json =
    | JNull
    | JStr(s: string)
    | JList(items: seq<Json>)
    | JObj(fields: map<string, Json>)

  /** One report line: the ordinal followed by one formatted cell per column. */
  datatype Row = Row(ordinal: nat, cells: seq<string>)

  /** What `getDomains` ends with: a list of rows, the failure sentinel -1,
      or an exception that nothing in the script catches. */
  datatype Report =
    | Rows(rows: seq<Row>)
    | Failed
    | Raised

  /** Python's `v.get(key, default)`: None when `v` is not a mapping, which
      raises AttributeError in the source. */
  function Get(v: Json, key: string, default: Json): Option<Json>
  {
    match v
    case JObj(f) => Some(if key in f then f[key] else default)
    case _ => None
  }

  const EmptyObj: Json := JObj(map[])
}
